=== FILE: README.md ===
# LogViewer core, modelled in Dafny

LogViewer is a React component that pages through a remote newline-delimited
JSON (NDJSON) log file. It shows the log records in a table.
`src/utils/index.js` also defines an hourly grouping, `groupLogsByHour`, that
only its tests call. This project models the paging and parsing logic under
the table, and that grouping, and proves properties of them:

- **`parseNDJSON`** (`src/LogViewer.js`): a fetched chunk of text is split on
  `"\n"`. Lines that are empty after `trim()` are dropped. Every other line
  goes through `JSON.parse`, and each entry that parses is appended, in order.
  A line that fails to parse is skipped. `JSON.parse` is a parameter
  `parse: string -> Option<R>`, where `None` means it threw, and the record
  type `R` is generic.
- **The `fetchLogs` paging step** (`src/LogViewer.js`): while a fetch is in
  flight (`loading`), a trigger is ignored. Otherwise the viewer:
  - requests `Range: bytes=start-(start+chunkSize)`, which covers 10001 bytes
    because both ends of an HTTP byte range are inclusive;
  - appends the parsed entries;
  - advances `start` by exactly `chunkSize`;
  - clears `loading`.

  The fetch result is a parameter: a body text, or a rejection.
- **`formatHour` and `groupLogsByHour`** (`src/utils/index.js`):
  - each log's `_time` is floored to the start of its hour;
  - the logs are counted per hour;
  - the buckets come in the order in which their hours first appear.

  Times are JavaScript time values: integer milliseconds since the epoch,
  bounded by ±8.64e15. A key produced by `toISOString` stands for its time
  value.

Modules:
- `Wrappers` holds `Option`.
- `JsString` holds the string built-ins the core uses:
  - `split("\n")`, with its inverse `Join`;
  - `trim()`, over the ECMAScript white-space and line-terminator set.
- `Ndjson` holds `parseNDJSON`.
- `Paging` holds the `fetchLogs` state machine and whole paging sessions.
- `Hours` holds the hourly grouping.

What the code does at the edges:
- it has no carry-over buffer, so a record cut by a chunk boundary is lost,
  while the lines around it survive (`Ndjson.ParseNdjsonSplitRecord`); a
  boundary on a newline loses nothing (`Ndjson.ParseNdjsonSeamAtNewline`);
- it never detects the end of the data;
- a failed fetch leaves `loading` set, and with it every later trigger is a
  no-op (`Paging.RunWhileLoading`);
- consecutive requests overlap by one byte (`Paging.PagesFromMount`).

`formatHour` is not exported from `src/utils/index.js`. Its test imports it
from `./timeUtils`, a module that is not part of this model. `Hours.FormatHour`
models the definition in `src/utils/index.js`.

## Model

| member | source | states |
|---|---|---|
| JsString.Split | src/LogViewer.js:24 | `split("\n")` gives one more piece than there are newlines, and no piece holds a newline |
| JsString.JoinSplit | src/LogViewer.js:24 | joining the pieces of `split("\n")` with newlines gives back the original text |
| JsString.SplitJoin | src/LogViewer.js:24 | splitting newline-free pieces joined by newlines gives back exactly those pieces |
| JsString.SplitAppend | src/LogViewer.js:24 | splitting `a + b` gives the pieces of `a` and of `b`, with the last piece of `a` glued to the first piece of `b` |
| JsString.SplitNoNewline | src/LogViewer.js:24 | text without a newline splits into the one piece that is the text itself |
| JsString.SplitEndNewline | src/LogViewer.js:24 | a trailing newline adds exactly one empty piece to the split |
| JsString.SplitAtNewline | src/LogViewer.js:24 | splitting `pre + "\n" + s` gives the pieces of `pre` followed by the pieces of `s` |
| JsString.SplitLine | src/LogViewer.js:24 | a newline-free line followed by a newline splits into that line, then the pieces of the rest |
| JsString.TrimStartSpec | src/LogViewer.js:24 | leading trimming removes a blank prefix, and the result is empty or starts with a non-white-space character |
| JsString.TrimEndSpec | src/LogViewer.js:24 | trailing trimming removes a blank suffix, and the result is empty or ends with a non-white-space character |
| JsString.Trim | src/LogViewer.js:24 | `trim()` never lengthens, and a non-empty result begins and ends with a character that is not white space |
| JsString.TrimEmptyIffBlank | src/LogViewer.js:24 | `line.trim() === ""` holds exactly when every character of the line is white space |
| Ndjson.HasContent | src/LogViewer.js:24-28 | definition of `line.trim() !== ""`; a line with content is non-empty, and `JsString.TrimEmptyIffBlank` states that it has content exactly when it is not all white space |
| Ndjson.KeepContent | src/LogViewer.js:24 | the `filter` keeps at most as many lines as the split produced |
| Ndjson.KeepContentKeepsNonBlank | src/LogViewer.js:24 | the filter keeps only pieces of its input, none of them blank, and every piece that is not blank is kept |
| Ndjson.KeepContentSelects | src/LogViewer.js:24 | the filter's output is exactly the pieces with content, at increasing positions of the input, with none missing |
| Ndjson.Lines | src/LogViewer.js:24 | definition of the filtered split; it has at most one line per newline-delimited piece, and `Ndjson.LinesAreNonBlank` and `Ndjson.KeepContentSelects` state which lines it holds |
| Ndjson.LinesAreNonBlank | src/LogViewer.js:24 | every line that reaches the parsing loop is non-blank and newline-free |
| Ndjson.ParseNdjson | src/LogViewer.js:23-36 | a chunk yields at most one entry per newline-delimited piece |
| Ndjson.ParseLine | src/LogViewer.js:28-34 | one iteration pushes at most one entry; it pushes one exactly when the line has content and `JSON.parse` accepts it, and the entry is what `JSON.parse` returned |
| Ndjson.ParseLines | src/LogViewer.js:27-36 | the `forEach` pushes at most one entry per line |
| Ndjson.ParseLinesAppend | src/LogViewer.js:27-36 | the `forEach` over two runs of lines yields the first run's entries followed by the second's |
| Ndjson.ParseLinesSkipsFailure | src/LogViewer.js:28-34 | a blank line, or a line `JSON.parse` rejects, contributes nothing, and the lines around it are unaffected |
| Ndjson.ParseLinesSelectsSuccesses | src/LogViewer.js:27-36 | the entries are exactly the parses of the lines that have content and parse, in increasing line order, with none missing |
| Ndjson.ParseNdjsonSelects | src/LogViewer.js:23-36 | the entries of a chunk are exactly the parses of the split's pieces that have content and parse, in their order in the chunk, with none missing |
| Ndjson.ParseNdjsonConsultsOnlyContent | src/LogViewer.js:24-30 | two parsers that agree on the non-blank lines give the same entries, so blank lines never reach `JSON.parse` |
| Ndjson.FilterIsRedundant | src/LogViewer.js:24-28 | the blank-line filter and the check inside the loop overlap: parsing without the filter gives the same entries |
| Ndjson.ParseNdjsonSingleRecord | src/LogViewer.js:23-36 | one non-blank, newline-free line that parses yields exactly its entry |
| Ndjson.ParseNdjsonMalformedBetween | src/LogViewer.js:29-34 | a malformed line between two good lines is skipped, and both good entries survive in order |
| Ndjson.ParseNdjsonEmpty | src/LogViewer.js:23-36 | an empty chunk yields no entries |
| Ndjson.ParseNdjsonAtNewline | src/LogViewer.js:23-36 | the entries of `pre + "\n" + s` are those of `pre` followed by those of `s` |
| Ndjson.ParseNdjsonSeamAtNewline | src/LogViewer.js:23-36 | when a page ends in a newline, the next page starts with that same newline, and parsing the two pages separately gives the entries of the stream they cover |
| Ndjson.ParseNdjsonRejectedLine | src/LogViewer.js:29-34 | a newline-free chunk that `JSON.parse` rejects yields no entries |
| Ndjson.ParseNdjsonSplitRecord | src/LogViewer.js:23-36 | a record cut by a page seam, whose fragments share the seam byte, is lost and nothing else is: when `JSON.parse` rejects both fragments, the first page yields the entries of the lines before the record and the second those after it, while the unsplit stream yields those entries with the record's entry between them |
| Paging.Initial | src/LogViewer.js:13-20 | definition of the mount state; it starts on a page boundary, not loading, with no logs, and `Paging.PagesFromMount` states what sessions from it do |
| Paging.PageRequest | src/LogViewer.js:46-51 | the page request starts at `start` and covers `chunkSize + 1` bytes, because the range end is inclusive |
| Paging.Begin | src/LogViewer.js:56-61 | a request is made exactly when not loading; while loading the call changes nothing; otherwise it sets `loading` and requests the page at `start` |
| Paging.Finish | src/LogViewer.js:61-65 | logs only grow, and what is appended is the parsed body; `start` advances by `chunkSize` after a body and not otherwise; `loading` stays set exactly when the fetch rejected, and then nothing changes |
| Paging.Cycle | src/LogViewer.js:56-66 | one `fetchLogs` call requests the page at `start` exactly when not loading, and is otherwise a no-op; logs only grow, by the parsed body; `start` advances by `chunkSize` after a body; `loading` stays set exactly when the fetch rejected |
| Paging.Run | src/LogViewer.js:56-66 | over successive `fetchLogs` calls, logs only grow, `start` never decreases, and at most one request is made per fetch result |
| Paging.FinishAppends | src/LogViewer.js:43 | after a body, the new logs are the old logs followed by the parsed entries |
| Paging.RunFromIdle | src/LogViewer.js:56-66 | over a session with `k` bodies before the first rejection: `start` advances by `k` pages; the logs gain those bodies' entries in order; `loading` stays set exactly when a fetch rejected; the i-th request is for page `start + i*chunkSize`; and no request follows a rejection |
| Paging.PagesChain | src/LogViewer.js:46-51 | pages requested at successive multiples of `chunkSize` each start on the byte where the previous one ended |
| Paging.PagesFromMount | src/LogViewer.js:58-64 | from mount, `start` is always a multiple of `chunkSize`, every request spans `chunkSize + 1` bytes, and each request begins on the byte where the previous one ended |
| Hours.HourStart | src/utils/index.js:3-4 | the hour start is a multiple of an hour, at or before the time, and less than an hour before it |
| Hours.FormatHour | src/utils/index.js:2-6 | a result exists exactly when the date is valid, and it is the start of the hour holding the time |
| Hours.HourStartUnique | src/utils/index.js:3-4 | any hour-aligned value within the hour before a time is that time's hour start |
| Hours.HourStartIdempotent | src/utils/index.js:3-4 | flooring an hour start again changes nothing |
| Hours.HourStartMonotone | src/utils/index.js:3-4 | flooring preserves the order of times |
| Hours.FormatHourExamples | src/utils/index.test.js:4-25 | 09:45:00Z, 09:45:30.123Z and 13:45+04:00 on 2024-08-21 map to 09:00Z, and 00:15Z maps to 00:00Z |
| Hours.HourKeys | src/utils/index.js:11-12 | hour keys exist exactly when every log's date is valid, with one key per log, equal to that log's hour start |
| Hours.GroupLogsByHour | src/utils/index.js:9-24 | the grouping fails (`toISOString` throws) exactly when some log has an invalid date |
| Hours.Count | src/utils/index.js:13-17 | one iteration tallies one more occurrence of `hour`: its key is present with its old count plus one (one if new); the key order is unchanged for a known hour and gains `hour` at the end for a new one |
| Hours.CountUpdatesOnlyHour | src/utils/index.js:13-17 | an iteration adds `hour` to the keys and leaves every other count unchanged |
| Hours.Group | src/utils/index.js:10-18 | the loop's key order is no longer than the logs and every key in it has a count |
| Hours.GroupTallies | src/utils/index.js:10-18 | the object built by the loop has exactly the hours that occur as keys, counts each hour's occurrences, and lists its keys in first-seen order |
| Hours.Buckets | src/utils/index.js:20-23 | `Object.keys(...).map` gives one bucket per key, in key order, carrying that key's count |
| Hours.GroupLogsByHourCounts | src/utils/index.js:13-23 | bucket hours are pairwise distinct, every count is at least 1, and each count equals the number of logs in that hour |
| Hours.GroupLogsByHourCovers | src/utils/index.js:11-23 | every log's hour has a bucket |
| Hours.GroupLogsByHourFirstSeen | src/utils/index.js:13-23 | every bucket's hour occurs among the logs, and buckets come in the order their hours first occur |
| Hours.GroupLogsByHourConserves | src/utils/index.js:9-24 | the counts add up to the number of logs |
| Hours.GroupLogsByHourEmpty | src/utils/index.test.js:45-49 | no logs give no buckets |
| Hours.GroupLogsByHourSingle | src/utils/index.test.js:66-70 | a single log gives one bucket for its hour, with count 1 |
| Hours.GroupLogsByHourExample | src/utils/index.test.js:31-43 | logs at 09:15, 09:45, 10:00 and 10:30 give two buckets, 09:00 and 10:00, each with count 2 |
| Hours.GroupLogsByHourInvalid | src/utils/index.js:5-12 | one log with an invalid date makes the whole grouping fail, wherever it sits |

## Left out

- The React side is not modelled: `useState` and its batching, `useEffect`, `useCallback` and the stale closures they create, `IntersectionObserver`, the table and row expansion (`src/LogViewer.js:68-124`). The model treats each `fetchLogs` call as running to completion against the current state.
- The HTTP transport is not modelled. `fetch` and `response.text()` become a `Reply` parameter, and since `response.ok` is never checked, an error page is a `Body` like any other. The URL is not modelled.
- `JSON.parse` is not modelled: its grammar is the parameter `parse`.
- `console.log` and `console.error` are left out, since they have no effect on state.
- Paging.Run: a session is a finite sequence of replies, and the fetch calls it describes happen one after another. Interleaved triggers are covered only by `Begin`'s no-op while loading.
- Hours.FormatHour: returns the time value of the hour start instead of the ISO 8601 string. `toISOString` is injective on valid dates, so grouping by either gives the same buckets.
- Hours.HourStart: floors in UTC. `setMinutes(0, 0, 0)` works in the local time zone, and in a zone whose offset is not a whole number of hours the two differ. Daylight-saving gaps are not modelled either.
- Hours.Log: date-string parsing (`new Date(log._time)`) is not modelled. A log carries the resulting time value, or `None` for an Invalid Date.
- `src/TimeLineChart.js`, `src/StyledLogViewer.js` and `src/index.js` are presentation and bootstrapping, and are not part of this model.

=== FILE: hours.dfy ===
/** `formatHour` and `groupLogsByHour` of the viewer's utilities. Times are
    JavaScript time values: integer milliseconds since the epoch, in UTC,
    within the range a `Date` can hold. An ISO string produced by
    `toISOString` stands for its time value (distinct valid times give
    distinct strings), so an hour key is the time value of the hour's start. */
module Hours {
  import opened Wrappers

  /** Milliseconds in an hour. */
  const HourMs: int := 3600000

  /** Largest magnitude of a valid time value: 100,000,000 days. */
  const MaxTime: int := 8640000000000000

  /** A time value a valid `Date` can hold. */
  type TimeValue = t: int | -MaxTime <= t <= MaxTime

  /** A log as the grouping reads it: the time value of `new Date(log._time)`,
      or `None` when that is an Invalid Date (a missing or unparseable `_time`). */
  datatype Log = Log(time: Option<TimeValue>)

  /** An element of the result: `{ time, count }`. */
  datatype Bucket = Bucket(time: TimeValue, count: nat)

  /** `date.setMinutes(0, 0, 0)`: the start of the hour holding `t`. Time
      values are floored, so this holds before the epoch too. */
  function HourStart(t: TimeValue): (h: TimeValue)
    ensures h % HourMs == 0
    ensures h <= t < h + HourMs
  {
    t - t % HourMs
  }

  /** `formatHour(timestamp)` on the time value of `new Date(timestamp)`:
      `toISOString` throws a RangeError on an Invalid Date. */
  function FormatHour(time: Option<TimeValue>): (r: Option<TimeValue>)
    ensures r.Some? <==> time.Some?
    ensures r.Some? ==> r.value % HourMs == 0 && r.value <= time.value < r.value + HourMs
  {
    match time
    case None => None
    case Some(t) => Some(HourStart(t))
  }

  /** The hour start is the only whole hour at or before `t` and less than
      an hour before it. */
  lemma HourStartUnique(t: TimeValue, h: int)
    requires h % HourMs == 0 && h <= t < h + HourMs
    ensures h == HourStart(t)
  {
    var r := HourStart(t);
    assert h == HourMs * (h / HourMs);
    assert r == HourMs * (r / HourMs);
    assert -HourMs < h - r < HourMs;
  }

  /** Truncating twice is truncating once. */
  lemma HourStartIdempotent(t: TimeValue)
    ensures HourStart(HourStart(t)) == HourStart(t)
  {
    var h := HourStart(t);
    HourStartUnique(h, h);
  }

  /** Later times never fall in earlier hours. */
  lemma HourStartMonotone(s: TimeValue, t: TimeValue)
    requires s <= t
    ensures HourStart(s) <= HourStart(t)
  {
    var hs, ht := HourStart(s), HourStart(t);
    assert hs == HourMs * (hs / HourMs);
    assert ht == HourMs * (ht / HourMs);
  }

  /** The utilities' test cases: 09:45:00Z, 09:45:30.123Z and 13:45:00+04:00
      on 2024-08-21 (the same instant as 09:45:00Z) all map to 09:00:00.000Z,
      and 00:15:00Z maps to 00:00:00.000Z. */
  lemma FormatHourExamples()
    ensures FormatHour(Some(1724233500000)) == Some(1724230800000)
    ensures FormatHour(Some(1724233530123)) == Some(1724230800000)
    ensures FormatHour(Some(1724199300000)) == Some(1724198400000)
  {
  }

  /** Number of occurrences of `h` in `hours`. */
  function Occurrences(hours: seq<TimeValue>, h: TimeValue): (n: nat)
    ensures n <= |hours|
    ensures n > 0 <==> h in hours
  {
    if |hours| == 0 then 0
    else
      var front := hours[..|hours| - 1];
      assert hours == front + [hours[|hours| - 1]];
      Occurrences(front, h) + (if hours[|hours| - 1] == h then 1 else 0)
  }

  /** Position of the first occurrence of `h` in `hours`. */
  function FirstIndex(hours: seq<TimeValue>, h: TimeValue): (i: nat)
    requires h in hours
    ensures i < |hours| && hours[i] == h && h !in hours[..i]
  {
    var front := hours[..|hours| - 1];
    assert hours == front + [hours[|hours| - 1]];
    if h in front then
      var i := FirstIndex(front, h);
      assert hours[..i] == front[..i];
      i
    else |hours| - 1
  }

  /** The object `groupedLogs` with its keys in insertion order: `order`
      lists the hour keys as they were first assigned, `counts` their tallies. */
  datatype Tally = Tally(order: seq<TimeValue>, counts: map<TimeValue, nat>)

  /** One iteration of the `forEach`: a key already present (its count is
      at least 1, so `groupedLogs[hour]` is truthy) is incremented; a new key
      is set to 1 and takes the last place in the key order. */
  function Count(t: Tally, hour: TimeValue): (r: Tally)
    ensures hour in r.counts && r.counts[hour] == (if hour in t.counts then t.counts[hour] else 0) + 1
    ensures r.order == if hour in t.counts then t.order else t.order + [hour]
  {
    if hour in t.counts then Tally(t.order, t.counts[hour := t.counts[hour] + 1])
    else Tally(t.order + [hour], t.counts[hour := 1])
  }

  /** Counting touches only the tally of `hour`: the keys grow by `hour`
      and every other count is unchanged. */
  lemma CountUpdatesOnlyHour(t: Tally, hour: TimeValue)
    ensures Count(t, hour).counts.Keys == t.counts.Keys + {hour}
    ensures forall h :: h in t.counts && h != hour ==> Count(t, hour).counts[h] == t.counts[h]
  {
  }

  /** The keys of `t` are distinct, and the key order lists exactly the keys
      that have counts. */
  ghost predicate WellKeyed(t: Tally)
  {
    && (forall i, j :: 0 <= i < j < |t.order| ==> t.order[i] != t.order[j])
    && (forall h :: h in t.counts <==> h in t.order)
  }

  /** `t` is what counting `hours` one by one from an empty object gives:
      its keys are distinct, are exactly the hours that occur, are ordered by
      first occurrence, and each maps to its number of occurrences. */
  ghost predicate Tallies(t: Tally, hours: seq<TimeValue>)
  {
    && WellKeyed(t)
    && (forall h :: h in t.counts <==> h in hours)
    && CountsOf(t, hours)
    && FirstSeenOrder(t, hours)
  }

  /** Each key of `t` maps to its number of occurrences in `hours`. */
  ghost predicate CountsOf(t: Tally, hours: seq<TimeValue>)
  {
    forall h :: h in t.counts ==> t.counts[h] == Occurrences(hours, h)
  }

  /** The keys of `t`, all occurring in `hours`, are ordered by their first
      occurrence there. */
  ghost predicate FirstSeenOrder(t: Tally, hours: seq<TimeValue>)
  {
    && (forall i :: 0 <= i < |t.order| ==> t.order[i] in hours)
    && (forall i, j :: 0 <= i < j < |t.order| ==>
          FirstIndex(hours, t.order[i]) < FirstIndex(hours, t.order[j]))
  }

  /** The `forEach` of `groupLogsByHour` over the hour keys of the logs. */
  function Group(hours: seq<TimeValue>): (t: Tally)
    ensures |t.order| <= |hours|
    ensures forall i :: 0 <= i < |t.order| ==> t.order[i] in t.counts
  {
    if |hours| == 0 then Tally([], map[])
    else Count(Group(hours[..|hours| - 1]), hours[|hours| - 1])
  }

  /** Grouping keeps its keys distinct and in step with its counts. */
  lemma {:induction false} GroupWellKeyed(hours: seq<TimeValue>)
    ensures WellKeyed(Group(hours))
    decreases |hours|
  {
    if |hours| != 0 {
      GroupWellKeyed(hours[..|hours| - 1]);
    }
  }

  /** Grouping computes the tally of `hours`: distinct keys, exactly the
      hours that occur, first-seen order, and per-hour occurrence counts. */
  lemma {:induction false} GroupTallies(hours: seq<TimeValue>)
    ensures Tallies(Group(hours), hours)
    decreases |hours|
  {
    if |hours| != 0 {
      var front, last := hours[..|hours| - 1], hours[|hours| - 1];
      assert front + [last] == hours;
      assert Group(hours) == Count(Group(front), last);
      assert Tallies(Group(front), front) by {
        GroupTallies(front);
      }
      CountStep(Group(front), front, last);
    }
  }

  /** Counting one more hour keeps `Tallies`. */
  lemma CountStep(t: Tally, hours: seq<TimeValue>, hour: TimeValue)
    requires Tallies(t, hours)
    ensures Tallies(Count(t, hour), hours + [hour])
  {
    CountStepCounts(t, hours, hour);
    CountStepOrder(t, hours, hour);
  }

  lemma CountStepCounts(t: Tally, hours: seq<TimeValue>, hour: TimeValue)
    requires forall h :: h in t.counts <==> h in hours
    requires CountsOf(t, hours)
    ensures CountsOf(Count(t, hour), hours + [hour])
  {
    var all := hours + [hour];
    assert all[..|hours|] == hours;
    forall h ensures Occurrences(all, h) == Occurrences(hours, h) + (if hour == h then 1 else 0) {
    }
  }

  lemma CountStepOrder(t: Tally, hours: seq<TimeValue>, hour: TimeValue)
    requires forall h :: h in t.counts <==> h in hours
    requires forall h :: h in t.counts <==> h in t.order
    requires FirstSeenOrder(t, hours)
    ensures FirstSeenOrder(Count(t, hour), hours + [hour])
  {
    var all := hours + [hour];
    assert all[..|hours|] == hours;
    forall h | h in hours ensures FirstIndex(all, h) == FirstIndex(hours, h) {
    }
    var u := Count(t, hour);
    if hour in t.counts {
      assert u.order == t.order;
    } else {
      assert u.order == t.order + [hour];
      assert FirstIndex(all, hour) == |hours|;
      forall i, j | 0 <= i < j < |u.order|
        ensures FirstIndex(all, u.order[i]) < FirstIndex(all, u.order[j])
      {
        if j == |t.order| {
          assert u.order[i] == t.order[i];
        }
      }
    }
  }

  /** `Object.keys(groupedLogs).map((hour) => ({ time: hour, count: groupedLogs[hour] }))`. */
  function Buckets(t: Tally): (b: seq<Bucket>)
    requires forall i :: 0 <= i < |t.order| ==> t.order[i] in t.counts
    ensures |b| == |t.order|
    ensures forall i :: 0 <= i < |b| ==> b[i].time == t.order[i] && b[i].count == t.counts[t.order[i]]
  {
    seq(|t.order|, i requires 0 <= i < |t.order| => Bucket(t.order[i], t.counts[t.order[i]]))
  }

  /** Sum of the counts of `buckets`. */
  function Sum(buckets: seq<Bucket>): nat
  {
    if |buckets| == 0 then 0 else Sum(buckets[..|buckets| - 1]) + buckets[|buckets| - 1].count
  }

  /** The hour key of every log, or `None` if some log has an Invalid Date:
      `formatHour(log._time)` for each log in turn, the first Invalid Date
      throwing out of the loop. */
  function HourKeys(logs: seq<Log>): (r: Option<seq<TimeValue>>)
    ensures r.Some? <==> forall i :: 0 <= i < |logs| ==> logs[i].time.Some?
    ensures r.Some? ==> |r.value| == |logs|
    ensures r.Some? ==> forall i :: 0 <= i < |logs| ==> r.value[i] == HourStart(logs[i].time.value)
  {
    if |logs| == 0 then Some([])
    else
      match FormatHour(logs[0].time)
      case None => None
      case Some(hour) =>
        match HourKeys(logs[1..])
        case None => None
        case Some(rest) => Some([hour] + rest)
  }

  /** `groupLogsByHour(logs)`; `None` when it throws. */
  function GroupLogsByHour(logs: seq<Log>): (r: Option<seq<Bucket>>)
    ensures r.None? <==> exists i :: 0 <= i < |logs| && logs[i].time.None?
  {
    match HourKeys(logs)
    case None => None
    case Some(hours) => Some(Buckets(Group(hours)))
  }

  /** Every log has a valid date, so grouping does not throw. */
  ghost predicate AllValid(logs: seq<Log>)
  {
    forall i :: 0 <= i < |logs| ==> logs[i].time.Some?
  }

  /** The hour key of log `i`, which has a valid date. */
  function HourOf(logs: seq<Log>, i: nat): TimeValue
    requires i < |logs| && logs[i].time.Some?
  {
    HourStart(logs[i].time.value)
  }

  /** The buckets of a grouping: distinct hours, each occurring, with its
      number of occurrences as count (so at least 1), in first-seen order,
      and every hour that occurs has a bucket. */
  lemma GroupBuckets(hours: seq<TimeValue>)
    ensures var buckets := Buckets(Group(hours));
      && (forall i, j :: 0 <= i < j < |buckets| ==> buckets[i].time != buckets[j].time)
      && (forall i :: 0 <= i < |buckets| ==> buckets[i].time in hours)
      && (forall i :: 0 <= i < |buckets| ==> buckets[i].count == Occurrences(hours, buckets[i].time))
      && (forall i, j :: 0 <= i < j < |buckets| ==>
            FirstIndex(hours, buckets[i].time) < FirstIndex(hours, buckets[j].time))
      && (forall h :: h in hours ==> exists i :: 0 <= i < |buckets| && buckets[i].time == h)
  {
    var t := Group(hours);
    var buckets := Buckets(t);
    GroupTallies(hours);
    forall h | h in hours ensures exists i :: 0 <= i < |buckets| && buckets[i].time == h {
      assert h in t.order;
      var i :| 0 <= i < |t.order| && t.order[i] == h;
      assert buckets[i].time == h;
    }
  }

  /** `groupLogsByHour` returns the buckets of the hour keys of the logs. */
  lemma GroupLogsByHourIsGroup(logs: seq<Log>)
    requires AllValid(logs)
    ensures GroupLogsByHour(logs) == Some(Buckets(Group(HourKeys(logs).value)))
  {
  }

  /** Hour keys are pairwise distinct, every count is at least 1, and each
      count is the number of logs in that hour. */
  lemma GroupLogsByHourCounts(logs: seq<Log>)
    requires AllValid(logs)
    ensures GroupLogsByHour(logs).Some?
    ensures var buckets := GroupLogsByHour(logs).value;
      var hours := HourKeys(logs).value;
      && (forall i, j :: 0 <= i < j < |buckets| ==> buckets[i].time != buckets[j].time)
      && (forall i :: 0 <= i < |buckets| ==> buckets[i].count >= 1)
      && (forall i :: 0 <= i < |buckets| ==> buckets[i].count == Occurrences(hours, buckets[i].time))
  {
    GroupLogsByHourIsGroup(logs);
    GroupBuckets(HourKeys(logs).value);
  }

  /** Every log's hour has a bucket. */
  lemma GroupLogsByHourCovers(logs: seq<Log>)
    requires AllValid(logs)
    ensures GroupLogsByHour(logs).Some?
    ensures var buckets := GroupLogsByHour(logs).value;
      forall j :: 0 <= j < |logs| ==> exists i :: 0 <= i < |buckets| && buckets[i].time == HourOf(logs, j)
  {
    var hours := HourKeys(logs).value;
    GroupLogsByHourIsGroup(logs);
    GroupBuckets(hours);
    forall j | 0 <= j < |logs| ensures hours[j] in hours && hours[j] == HourOf(logs, j) {
    }
  }

  /** Buckets come in the order in which their hours first occur among the logs. */
  lemma GroupLogsByHourFirstSeen(logs: seq<Log>)
    requires AllValid(logs)
    ensures GroupLogsByHour(logs).Some?
    ensures var buckets := GroupLogsByHour(logs).value;
      var hours := HourKeys(logs).value;
      && (forall i :: 0 <= i < |buckets| ==> buckets[i].time in hours)
      && (forall i, j :: 0 <= i < j < |buckets| ==>
            FirstIndex(hours, buckets[i].time) < FirstIndex(hours, buckets[j].time))
  {
    GroupLogsByHourIsGroup(logs);
    GroupBuckets(HourKeys(logs).value);
  }

  /** The sum over the buckets of a key order is the sum over all but its
      last key plus the last key's count. */
  lemma SumSnoc(order: seq<TimeValue>, c: map<TimeValue, nat>)
    requires |order| > 0
    requires forall i :: 0 <= i < |order| ==> order[i] in c
    ensures Sum(Buckets(Tally(order, c)))
         == Sum(Buckets(Tally(order[..|order| - 1], c))) + c[order[|order| - 1]]
  {
    var n := |order|;
    assert Buckets(Tally(order, c))[..n - 1] == Buckets(Tally(order[..n - 1], c));
  }

  /** Incrementing the count of one key of a distinct key order raises the
      sum by one. */
  lemma {:induction false} SumBump(order: seq<TimeValue>, c: map<TimeValue, nat>, hour: TimeValue)
    requires forall i, j :: 0 <= i < j < |order| ==> order[i] != order[j]
    requires forall i :: 0 <= i < |order| ==> order[i] in c
    requires hour in order
    ensures Sum(Buckets(Tally(order, c[hour := c[hour] + 1]))) == Sum(Buckets(Tally(order, c))) + 1
    decreases |order|
  {
    var c' := c[hour := c[hour] + 1];
    var n := |order|;
    var front := order[..n - 1];
    SumSnoc(order, c);
    SumSnoc(order, c');
    if order[n - 1] == hour {
      assert hour !in front;
      SumAgree(front, c, c');
    } else {
      assert hour in front;
      SumBump(front, c, hour);
    }
  }

  /** Buckets over the same keys with the same counts have the same sum. */
  lemma SumAgree(order: seq<TimeValue>, c1: map<TimeValue, nat>, c2: map<TimeValue, nat>)
    requires forall i :: 0 <= i < |order| ==> order[i] in c1 && order[i] in c2 && c1[order[i]] == c2[order[i]]
    ensures Sum(Buckets(Tally(order, c1))) == Sum(Buckets(Tally(order, c2)))
  {
    assert Buckets(Tally(order, c1)) == Buckets(Tally(order, c2));
  }

  /** Count conservation: the counts add up to the number of logs. */
  lemma {:induction false} GroupConserves(hours: seq<TimeValue>)
    ensures Sum(Buckets(Group(hours))) == |hours|
    decreases |hours|
  {
    if |hours| != 0 {
      var front := hours[..|hours| - 1];
      var hour := hours[|hours| - 1];
      GroupConserves(front);
      GroupWellKeyed(front);
      CountAddsOne(Group(front), hour);
      assert Group(hours) == Count(Group(front), hour);
    }
  }

  /** Counting one more hour raises the sum of the counts by one. */
  lemma CountAddsOne(t: Tally, hour: TimeValue)
    requires WellKeyed(t)
    ensures forall i :: 0 <= i < |t.order| ==> t.order[i] in t.counts
    ensures var u := Count(t, hour);
      && (forall i :: 0 <= i < |u.order| ==> u.order[i] in u.counts)
      && Sum(Buckets(u)) == Sum(Buckets(t)) + 1
  {
    var u := Count(t, hour);
    if hour in t.counts {
      SumBump(t.order, t.counts, hour);
    } else {
      SumFresh(t, hour);
    }
  }

  /** A first-seen hour adds a bucket of one to the end. */
  lemma SumFresh(t: Tally, hour: TimeValue)
    requires forall i :: 0 <= i < |t.order| ==> t.order[i] in t.counts
    requires hour !in t.counts
    ensures var u := Count(t, hour);
      && (forall i :: 0 <= i < |u.order| ==> u.order[i] in u.counts)
      && Sum(Buckets(u)) == Sum(Buckets(t)) + 1
  {
    var u := Count(t, hour);
    assert u.order[..|t.order|] == t.order;
    SumSnoc(u.order, u.counts);
    SumAgree(t.order, t.counts, u.counts);
  }

  /** The counts returned by `groupLogsByHour` add up to the number of logs. */
  lemma GroupLogsByHourConserves(logs: seq<Log>)
    requires AllValid(logs)
    ensures GroupLogsByHour(logs).Some?
    ensures Sum(GroupLogsByHour(logs).value) == |logs|
  {
    GroupConserves(HourKeys(logs).value);
  }

  /** Grouping no logs gives no buckets. */
  lemma GroupLogsByHourEmpty()
    ensures GroupLogsByHour([]) == Some([])
  {
    assert HourKeys([]) == Some([]);
    assert Buckets(Group([])) == [];
  }

  /** A single log gives one bucket, its hour, with count 1. */
  lemma GroupLogsByHourSingle(t: TimeValue)
    ensures GroupLogsByHour([Log(Some(t))]) == Some([Bucket(HourStart(t), 1)])
  {
    var logs := [Log(Some(t))];
    assert logs[1..] == [];
    assert [HourStart(t)] + [] == [HourStart(t)];
    assert HourKeys(logs) == Some([HourStart(t)]);
    assert [HourStart(t)][..0] == [];
    var one := Tally([HourStart(t)], map[HourStart(t) := 1]);
    assert Group([HourStart(t)]) == one;
    var b := Buckets(one);
    assert |b| == 1 && b[0] == Bucket(HourStart(t), 1);
    assert b == [Bucket(HourStart(t), 1)];
  }

  /** The utilities' first grouping test: 09:15, 09:45, 10:00 and 10:30 on
      2024-08-21 (UTC) give the 09:00 bucket with 2, then the 10:00 bucket with 2. */
  lemma GroupLogsByHourExample()
    ensures GroupLogsByHour([Log(Some(1724231700000)), Log(Some(1724233500000)),
                             Log(Some(1724234400000)), Log(Some(1724236200000))])
         == Some([Bucket(1724230800000, 2), Bucket(1724234400000, 2)])
  {
    var nine, ten := 1724230800000, 1724234400000;
    ExampleHourKeys();
    ExampleGroup();
    var b := Buckets(Tally([nine, ten], map[nine := 2, ten := 2]));
    assert |b| == 2 && b[0] == Bucket(nine, 2) && b[1] == Bucket(ten, 2);
    assert b == [Bucket(nine, 2), Bucket(ten, 2)];
  }

  lemma ExampleHourKeys()
    ensures HourKeys([Log(Some(1724231700000)), Log(Some(1724233500000)),
                      Log(Some(1724234400000)), Log(Some(1724236200000))])
         == Some([1724230800000, 1724230800000, 1724234400000, 1724234400000])
  {
    var logs := [Log(Some(1724231700000)), Log(Some(1724233500000)),
                 Log(Some(1724234400000)), Log(Some(1724236200000))];
    assert forall i :: 0 <= i < |logs| ==> logs[i].time.Some?;
    var keys := HourKeys(logs).value;
    assert keys[0] == 1724230800000 && keys[1] == 1724230800000;
    assert keys[2] == 1724234400000 && keys[3] == 1724234400000;
    assert keys == [1724230800000, 1724230800000, 1724234400000, 1724234400000];
  }

  lemma ExampleGroup()
    ensures Group([1724230800000, 1724230800000, 1724234400000, 1724234400000])
         == Tally([1724230800000, 1724234400000], map[1724230800000 := 2, 1724234400000 := 2])
  {
    var nine, ten := 1724230800000, 1724234400000;
    var hours := [nine, nine, ten, ten];
    assert hours[..1][..0] == [];
    assert Group(hours[..1]) == Tally([nine], map[nine := 1]);
    assert hours[..2][..1] == hours[..1];
    assert Group(hours[..2]) == Tally([nine], map[nine := 2]);
    assert hours[..3][..2] == hours[..2];
    assert Group(hours[..3]) == Tally([nine, ten], map[nine := 2, ten := 1]);
    assert hours[..3] == hours[..|hours| - 1];
  }

  /** A log with an Invalid Date makes grouping throw, whatever the other logs. */
  lemma GroupLogsByHourInvalid(before: seq<Log>, after: seq<Log>)
    ensures GroupLogsByHour(before + [Log(None)] + after) == None
  {
    var logs := before + [Log(None)] + after;
    assert logs[|before|].time.None?;
  }
}

=== FILE: jsstring.dfy ===
/** The JavaScript string built-ins the log viewer relies on:
    `String.prototype.split` with the one-character separator "\n",
    `Array.prototype.join` with the same separator (its inverse), and
    `String.prototype.trim`. Strings are sequences of code points. */
module JsString {

  const Newline: char := '\n'

  /** `s.split("\n")`: the newline-free pieces between the newlines of `s`.
      The empty string splits into one empty piece, and a newline at either
      end yields an empty piece at that end. */
  function Split(s: string): (pieces: seq<string>)
    ensures |pieces| == NewlineCount(s) + 1
    ensures forall i :: 0 <= i < |pieces| ==> Newline !in pieces[i]
    decreases |s|
  {
    if |s| == 0 then [""]
    else
      var rest := Split(s[1..]);
      if s[0] == Newline then [""] + rest
      else [[s[0]] + rest[0]] + rest[1..]
  }

  /** Number of newline characters in `s`. */
  function NewlineCount(s: string): nat
    decreases |s|
  {
    if |s| == 0 then 0
    else (if s[0] == Newline then 1 else 0) + NewlineCount(s[1..])
  }

  /** `pieces.join("\n")`. */
  function Join(pieces: seq<string>): string
    decreases |pieces|
  {
    if |pieces| == 0 then ""
    else if |pieces| == 1 then pieces[0]
    else pieces[0] + [Newline] + Join(pieces[1..])
  }

  /** Joining the pieces of a split with "\n" gives back the original string. */
  lemma {:induction false} JoinSplit(s: string)
    ensures Join(Split(s)) == s
    decreases |s|
  {
    if |s| == 0 {
    } else {
      var rest := Split(s[1..]);
      JoinSplit(s[1..]);
      if s[0] == Newline {
        assert Split(s) == [""] + rest;
        if |rest| == 1 {
          assert Join(Split(s)) == "" + [Newline] + rest[0];
        } else {
          assert ([""] + rest)[1..] == rest;
        }
        assert s == [s[0]] + s[1..];
      } else {
        var first := [s[0]] + rest[0];
        assert Split(s) == [first] + rest[1..];
        if |rest| == 1 {
          assert Join(Split(s)) == first;
        } else {
          assert ([first] + rest[1..])[1..] == rest[1..];
          assert Join(rest) == rest[0] + [Newline] + Join(rest[1..]);
        }
        assert s == [s[0]] + s[1..];
      }
    }
  }

  /** Pieces `pa` followed by pieces `pb`, the last of `pa` fused with the
      first of `pb`: the pieces of a concatenation. */
  function Glue(pa: seq<string>, pb: seq<string>): seq<string>
    requires |pa| >= 1 && |pb| >= 1
  {
    pa[..|pa| - 1] + [pa[|pa| - 1] + pb[0]] + pb[1..]
  }

  /** `ps` with `c` put in front of its first piece. */
  function Prefix(c: char, ps: seq<string>): seq<string>
    requires |ps| >= 1
  {
    [[c] + ps[0]] + ps[1..]
  }

  lemma GlueNewline(pa: seq<string>, pb: seq<string>)
    requires |pa| >= 1 && |pb| >= 1
    ensures Glue([""] + pa, pb) == [""] + Glue(pa, pb)
  {
    assert ([""] + pa)[..|pa|] == [""] + pa[..|pa| - 1];
  }

  lemma GluePrefix(c: char, pa: seq<string>, pb: seq<string>)
    requires |pa| >= 1 && |pb| >= 1
    ensures Glue(Prefix(c, pa), pb) == Prefix(c, Glue(pa, pb))
  {
    if |pa| == 1 {
      assert [c] + (pa[0] + pb[0]) == ([c] + pa[0]) + pb[0];
    } else {
      assert Glue(pa, pb)[0] == pa[0];
      assert Glue(pa, pb)[1..] == pa[1..|pa| - 1] + [pa[|pa| - 1] + pb[0]] + pb[1..];
      assert Prefix(c, pa)[..|pa| - 1] == [[c] + pa[0]] + pa[1..|pa| - 1];
    }
  }

  /** How splitting distributes over concatenation: the last piece of `a`
      and the first piece of `b` fuse into one piece of `a + b`; every
      other piece is kept as it is. */
  lemma {:induction false} SplitAppend(a: string, b: string)
    ensures Split(a + b) == Glue(Split(a), Split(b))
    decreases |a|
  {
    var pb := Split(b);
    if |a| == 0 {
      assert a + b == b;
      assert Split(a) == [""];
      assert "" + pb[0] == pb[0];
      assert pb == [pb[0]] + pb[1..];
    } else {
      var ra := Split(a[1..]);
      assert Split(a[1..] + b) == Glue(ra, pb) by {
        SplitAppend(a[1..], b);
      }
      assert (a + b)[0] == a[0] && (a + b)[1..] == a[1..] + b;
      if a[0] == Newline {
        assert Split(a) == [""] + ra;
        assert Split(a + b) == [""] + Glue(ra, pb);
        GlueNewline(ra, pb);
      } else {
        assert Split(a) == Prefix(a[0], ra);
        assert Split(a + b) == Prefix(a[0], Glue(ra, pb));
        GluePrefix(a[0], ra, pb);
      }
    }
  }

  /** A string with no newline splits into itself. */
  lemma {:induction false} SplitNoNewline(s: string)
    requires Newline !in s
    ensures Split(s) == [s]
    decreases |s|
  {
    if |s| != 0 {
      assert Newline !in s[1..] by {
        forall i | 0 <= i < |s[1..]| ensures s[1..][i] != Newline {
          assert s[1..][i] == s[i + 1];
        }
      }
      SplitNoNewline(s[1..]);
      assert s == [s[0]] + s[1..];
    }
  }

  /** Splitting at a newline: the pieces of `pre + "\n" + s` are those of
      `pre` followed by those of `s`. */
  lemma SplitAtNewline(pre: string, s: string)
    ensures Split(pre + [Newline] + s) == Split(pre) + Split(s)
  {
    var p, q := Split(pre), Split(s);
    var head := pre + [Newline];
    assert Split(head) == p + [""] by {
      SplitEndNewline(pre);
    }
    assert Split(head + s) == Glue(p + [""], q) by {
      SplitAppend(head, s);
    }
    assert Glue(p + [""], q) == p + q by {
      assert (p + [""])[..|p|] == p;
      assert "" + q[0] == q[0];
      assert [q[0]] + q[1..] == q;
    }
  }

  /** A trailing newline adds one empty piece. */
  lemma SplitEndNewline(pre: string)
    ensures Split(pre + [Newline]) == Split(pre) + [""]
  {
    var p := Split(pre);
    assert Split([Newline]) == ["", ""] by {
      assert [Newline][1..] == [];
    }
    assert Split(pre + [Newline]) == Glue(p, ["", ""]) by {
      SplitAppend(pre, [Newline]);
    }
    var front, last := p[..|p| - 1], p[|p| - 1];
    assert Glue(p, ["", ""]) == front + [last + ""] + [""];
    assert last + "" == last;
    assert front + [last] == p;
  }

  /** A newline-free line followed by a newline and more text splits into
      that line followed by the pieces of the rest. */
  lemma SplitLine(line: string, rest: string)
    requires Newline !in line
    ensures Split(line + [Newline] + rest) == [line] + Split(rest)
  {
    var head := line + [Newline];
    assert Split(head) == [line, ""] by {
      SplitNoNewline(line);
      assert [Newline][1..] == [];
      assert Split([Newline]) == ["", ""];
      SplitAppend(line, [Newline]);
      assert line + "" == line;
    }
    var pr := Split(rest);
    assert Split(head + rest) == Glue([line, ""], pr) by {
      SplitAppend(head, rest);
    }
    assert Glue([line, ""], pr) == [line] + pr by {
      assert "" + pr[0] == pr[0];
    }
  }

  /** Splitting is the inverse of joining pieces that hold no newline. */
  lemma {:induction false} SplitJoin(pieces: seq<string>)
    requires |pieces| >= 1
    requires forall i :: 0 <= i < |pieces| ==> Newline !in pieces[i]
    ensures Split(Join(pieces)) == pieces
    decreases |pieces|
  {
    if |pieces| == 1 {
      SplitNoNewline(pieces[0]);
    } else {
      var rest := pieces[1..];
      SplitJoin(rest);
      SplitLine(pieces[0], Join(rest));
      assert pieces == [pieces[0]] + rest;
    }
  }

  /** WhiteSpace and LineTerminator code points of ECMAScript, which `trim`
      removes: tab, line feed, vertical tab, form feed, carriage return,
      space, no-break space, the Unicode space separators, the line and
      paragraph separators, and the byte order mark. */
  predicate IsWhitespace(c: char)
  {
    || c == '\t' || c == '\n' || c == '\U{000B}' || c == '\U{000C}' || c == '\r'
    || c == ' ' || c == '\U{00A0}' || c == '\U{1680}'
    || ('\U{2000}' <= c <= '\U{200A}')
    || c == '\U{2028}' || c == '\U{2029}' || c == '\U{202F}' || c == '\U{205F}'
    || c == '\U{3000}' || c == '\U{FEFF}'
  }

  /** Every character of `s` is whitespace (the empty string included). */
  predicate IsBlank(s: string)
  {
    forall i :: 0 <= i < |s| ==> IsWhitespace(s[i])
  }

  /** `s` without its leading whitespace. */
  function TrimStart(s: string): (r: string)
    ensures |r| <= |s|
    decreases |s|
  {
    if |s| > 0 && IsWhitespace(s[0]) then TrimStart(s[1..]) else s
  }

  /** `TrimStart` removes a blank prefix, and exactly as much as it can. */
  lemma {:induction false} TrimStartSpec(s: string)
    ensures var r := TrimStart(s);
      && r == s[|s| - |r|..]
      && IsBlank(s[..|s| - |r|])
      && (r == [] || !IsWhitespace(r[0]))
    decreases |s|
  {
    if |s| > 0 && IsWhitespace(s[0]) {
      TrimStartSpec(s[1..]);
      var r := TrimStart(s);
      var k := |s| - |r|;
      assert s[1..][..k - 1] == s[1..k];
      forall i | 0 <= i < k ensures IsWhitespace(s[i]) {
        if i > 0 {
          assert s[i] == s[1..][..k - 1][i - 1];
        }
      }
      assert s[1..][k - 1..] == s[k..];
    } else {
      assert s[..0] == [];
    }
  }

  /** `s` without its trailing whitespace. */
  function TrimEnd(s: string): (r: string)
    ensures |r| <= |s|
    decreases |s|
  {
    if |s| > 0 && IsWhitespace(s[|s| - 1]) then TrimEnd(s[..|s| - 1]) else s
  }

  /** `TrimEnd` removes a blank suffix, and exactly as much as it can. */
  lemma {:induction false} TrimEndSpec(s: string)
    ensures var r := TrimEnd(s);
      && r == s[..|r|]
      && IsBlank(s[|r|..])
      && (r == [] || !IsWhitespace(r[|r| - 1]))
    decreases |s|
  {
    if |s| > 0 && IsWhitespace(s[|s| - 1]) {
      var front := s[..|s| - 1];
      TrimEndSpec(front);
      var r := TrimEnd(s);
      assert front[..|r|] == s[..|r|];
      forall i | |r| <= i < |s| ensures IsWhitespace(s[i]) {
        if i < |s| - 1 {
          assert s[i] == front[|r|..][i - |r|];
        }
      }
    } else {
      assert s[|s|..] == [];
    }
  }

  /** `s.trim()`: white space and line terminators removed from both ends,
      so the result, when not empty, starts and ends with a character that
      is not white space. */
  function Trim(s: string): (r: string)
    ensures |r| <= |s|
    ensures r != [] ==> !IsWhitespace(r[0]) && !IsWhitespace(r[|r| - 1])
  {
    TrimEndsSpec(s);
    TrimEnd(TrimStart(s))
  }

  lemma TrimEndsSpec(s: string)
    ensures var r := TrimEnd(TrimStart(s));
      r != [] ==> !IsWhitespace(r[0]) && !IsWhitespace(r[|r| - 1])
  {
    var t := TrimStart(s);
    TrimStartSpec(s);
    TrimEndSpec(t);
    if TrimEnd(t) != [] {
      assert TrimEnd(t)[0] == t[0];
    }
  }

  /** `s.trim() !== ""` holds exactly when `s` has a non-whitespace character. */
  lemma TrimEmptyIffBlank(s: string)
    ensures Trim(s) == "" <==> IsBlank(s)
  {
    TrimStartSpec(s);
    TrimEndSpec(TrimStart(s));
    var t := TrimStart(s);
    var k := |s| - |t|;
    if t == [] {
      assert s == s[..k];
    } else {
      assert s[k] == t[0];
      assert t[0..] == t;
      assert !IsBlank(t[..]);
    }
  }
}

=== FILE: ndjson.dfy ===
/** `parseNDJSON` of the log viewer: a fetched chunk of newline-delimited
    JSON is split on "\n", lines that are empty after trimming are dropped,
    each remaining line goes through `JSON.parse`, and the parsed entries are
    kept in order. A line that `JSON.parse` rejects is logged and skipped.
    `JSON.parse` is the parameter `parse`; `None` means it threw. There is
    no carry-over between chunks: every chunk is parsed on its own. */
module Ndjson {
  import opened Wrappers
  import opened JsString

  /** `line.trim() !== ""`. */
  predicate HasContent(line: string)
    ensures HasContent(line) ==> |line| > 0
  {
    Trim(line) != ""
  }

  /** The `filter((line) => line.trim() !== "")` step. */
  function KeepContent(pieces: seq<string>): (kept: seq<string>)
    ensures |kept| <= |pieces|
    decreases |pieces|
  {
    if |pieces| == 0 then []
    else (if HasContent(pieces[0]) then [pieces[0]] else []) + KeepContent(pieces[1..])
  }

  /** The filter keeps only pieces of its input, and only those that are
      not blank; and every piece that is not blank is kept. */
  lemma {:induction false} KeepContentKeepsNonBlank(pieces: seq<string>)
    ensures forall i :: 0 <= i < |KeepContent(pieces)| ==>
      KeepContent(pieces)[i] in pieces && !IsBlank(KeepContent(pieces)[i])
    ensures forall i :: 0 <= i < |pieces| && !IsBlank(pieces[i]) ==> pieces[i] in KeepContent(pieces)
    decreases |pieces|
  {
    if |pieces| != 0 {
      var head := if HasContent(pieces[0]) then [pieces[0]] else [];
      TrimEmptyIffBlank(pieces[0]);
      KeepContentKeepsNonBlank(pieces[1..]);
      assert KeepContent(pieces) == head + KeepContent(pieces[1..]);
      forall i | 1 <= i < |pieces| && !IsBlank(pieces[i]) ensures pieces[i] in KeepContent(pieces) {
        assert pieces[1..][i - 1] == pieces[i];
      }
    }
  }

  /** The parser that accepts every line as itself. */
  function Verbatim(line: string): Option<string>
  {
    Some(line)
  }

  /** The filter is the parsing loop run with a parser that accepts every
      line verbatim. */
  lemma {:induction false} KeepContentIsParse(pieces: seq<string>)
    ensures KeepContent(pieces) == ParseLines(pieces, Verbatim)
    decreases |pieces|
  {
    if |pieces| != 0 {
      KeepContentIsParse(pieces[1..]);
    }
  }

  /** The filter keeps exactly the pieces with content, in their original
      order: the kept lines are the pieces at increasing positions, each
      with content, and every piece with content is among them. */
  lemma {:induction false} KeepContentSelects(pieces: seq<string>)
    ensures Selects(pieces, Verbatim, KeepContent(pieces), Accepted(pieces, Verbatim))
  {
    KeepContentIsParse(pieces);
    ParseLinesSelectsSuccesses(pieces, Verbatim);
  }

  /** The lines of a chunk that reach the parsing loop:
      `data.split("\n").filter((line) => line.trim() !== "")`. */
  function Lines(chunk: string): (lines: seq<string>)
    ensures |lines| <= NewlineCount(chunk) + 1
  {
    KeepContent(Split(chunk))
  }

  /** No line handed to the parsing loop is blank or holds a newline. */
  lemma LinesAreNonBlank(chunk: string)
    ensures forall i :: 0 <= i < |Lines(chunk)| ==>
      Newline !in Lines(chunk)[i] && !IsBlank(Lines(chunk)[i])
  {
    KeepContentKeepsNonBlank(Split(chunk));
  }

  /** One iteration of the `forEach`: a line with content is handed to
      `parse`; a success is pushed, a failure is skipped. */
  function ParseLine<R>(line: string, parse: string -> Option<R>): (entries: seq<R>)
    ensures |entries| <= 1
    ensures entries != [] <==> HasContent(line) && parse(line).Some?
    ensures entries != [] ==> parse(line) == Some(entries[0])
  {
    if HasContent(line) then
      match parse(line)
      case Some(entry) => [entry]
      case None => []
    else []
  }

  /** The whole `forEach` over `lines`, pushing into `newLogs` in order. */
  function ParseLines<R>(lines: seq<string>, parse: string -> Option<R>): (entries: seq<R>)
    ensures |entries| <= |lines|
    decreases |lines|
  {
    if |lines| == 0 then []
    else ParseLine(lines[0], parse) + ParseLines(lines[1..], parse)
  }

  /** `newLogs` as computed by `parseNDJSON(chunk)`. */
  function ParseNdjson<R>(chunk: string, parse: string -> Option<R>): (entries: seq<R>)
    ensures |entries| <= NewlineCount(chunk) + 1
  {
    ParseLines(Lines(chunk), parse)
  }

  /** Parsing a list of lines is parsing its two halves and concatenating. */
  lemma {:induction false} ParseLinesAppend<R>(a: seq<string>, b: seq<string>, parse: string -> Option<R>)
    ensures ParseLines(a + b, parse) == ParseLines(a, parse) + ParseLines(b, parse)
    decreases |a|
  {
    if |a| == 0 {
      assert a + b == b;
    } else {
      assert (a + b)[1..] == a[1..] + b;
      ParseLinesAppend(a[1..], b, parse);
    }
  }

  /** Failure isolation: a line that is blank or that `parse` rejects
      contributes nothing, and the entries of the lines before and after it
      are kept unchanged and in order. */
  lemma ParseLinesSkipsFailure<R>(before: seq<string>, line: string, after: seq<string>,
                                  parse: string -> Option<R>)
    requires !HasContent(line) || parse(line).None?
    ensures ParseLines(before + [line] + after, parse)
         == ParseLines(before, parse) + ParseLines(after, parse)
  {
    ParseLinesAppend(before, [line], parse);
    assert ParseLines([line], parse) == ParseLine(line, parse) + ParseLines([], parse);
    assert ParseLines([line], parse) == [];
    var p := ParseLines(before, parse);
    assert p + [] == p;
    assert ParseLines(before + [line], parse) == p;
    ParseLinesAppend(before + [line], after, parse);
  }

  /** The positions of the lines that have content and that `parse` accepts. */
  ghost function Accepted<R>(lines: seq<string>, parse: string -> Option<R>): seq<nat>
    decreases |lines|
  {
    if |lines| == 0 then []
    else
      var rest := Shift(Accepted(lines[1..], parse));
      if HasContent(lines[0]) && parse(lines[0]).Some? then [0] + rest else rest
  }

  /** Every position moved one line down. */
  ghost function Shift(idx: seq<nat>): (r: seq<nat>)
  {
    seq(|idx|, j requires 0 <= j < |idx| => idx[j] + 1)
  }

  /** `entries` are the results of `parse` on exactly the lines at the
      increasing positions `idx`, and `idx` names every line with content
      that `parse` accepts. */
  ghost predicate Selects<R>(lines: seq<string>, parse: string -> Option<R>, entries: seq<R>, idx: seq<nat>)
  {
    && |idx| == |entries|
    && Picks(lines, parse, entries, idx)
    && Increasing(idx)
    && Covers(lines, parse, idx)
  }

  /** Entry `j` is what `parse` made of the line at position `idx[j]`. */
  ghost predicate Picks<R>(lines: seq<string>, parse: string -> Option<R>, entries: seq<R>, idx: seq<nat>)
    requires |idx| == |entries|
  {
    forall j :: 0 <= j < |idx| ==>
      idx[j] < |lines| && HasContent(lines[idx[j]]) && parse(lines[idx[j]]) == Some(entries[j])
  }

  ghost predicate Increasing(idx: seq<nat>)
  {
    forall j, k :: 0 <= j < k < |idx| ==> idx[j] < idx[k]
  }

  /** Every line with content that `parse` accepts is named in `idx`. */
  ghost predicate Covers<R>(lines: seq<string>, parse: string -> Option<R>, idx: seq<nat>)
  {
    forall i :: 0 <= i < |lines| && HasContent(lines[i]) && parse(lines[i]).Some? ==> i in idx
  }

  lemma {:induction false} AcceptedPicks<R>(lines: seq<string>, parse: string -> Option<R>)
    ensures |Accepted(lines, parse)| == |ParseLines(lines, parse)|
    ensures Picks(lines, parse, ParseLines(lines, parse), Accepted(lines, parse))
    decreases |lines|
  {
    if |lines| != 0 {
      var tail := lines[1..];
      AcceptedPicks(tail, parse);
      var rest, restEntries := Accepted(tail, parse), ParseLines(tail, parse);
      var shifted := Shift(rest);
      PicksShift(lines, parse, restEntries, rest);
      assert ParseLines(lines, parse) == ParseLine(lines[0], parse) + restEntries;
      if HasContent(lines[0]) && parse(lines[0]).Some? {
        assert Accepted(lines, parse) == [0] + shifted;
        assert ParseLines(lines, parse) == [parse(lines[0]).value] + restEntries;
        PicksCons(lines, parse, restEntries, shifted);
      } else {
        assert Accepted(lines, parse) == shifted;
        assert ParseLines(lines, parse) == restEntries;
      }
    }
  }

  /** Positions picked in the tail of `lines` pick the same entries one
      line further down in `lines`. */
  lemma PicksShift<R>(lines: seq<string>, parse: string -> Option<R>, entries: seq<R>, idx: seq<nat>)
    requires |lines| > 0 && |idx| == |entries|
    requires Picks(lines[1..], parse, entries, idx)
    ensures |Shift(idx)| == |entries|
    ensures Picks(lines, parse, entries, Shift(idx))
  {
    var shifted := Shift(idx);
    forall j | 0 <= j < |shifted|
      ensures shifted[j] < |lines| && HasContent(lines[shifted[j]]) && parse(lines[shifted[j]]) == Some(entries[j])
    {
      assert lines[shifted[j]] == lines[1..][idx[j]];
    }
  }

  /** An accepted first line puts its entry in front at position 0. */
  lemma PicksCons<R>(lines: seq<string>, parse: string -> Option<R>, entries: seq<R>, idx: seq<nat>)
    requires |lines| > 0 && HasContent(lines[0]) && parse(lines[0]).Some?
    requires |idx| == |entries| && Picks(lines, parse, entries, idx)
    ensures Picks(lines, parse, [parse(lines[0]).value] + entries, [0] + idx)
  {
    var acc, all := [0] + idx, [parse(lines[0]).value] + entries;
    forall j | 0 <= j < |acc|
      ensures acc[j] < |lines| && HasContent(lines[acc[j]]) && parse(lines[acc[j]]) == Some(all[j])
    {
      if j > 0 {
        assert acc[j] == idx[j - 1] && all[j] == entries[j - 1];
      }
    }
  }

  lemma {:induction false} AcceptedIncreasing<R>(lines: seq<string>, parse: string -> Option<R>)
    ensures Increasing(Accepted(lines, parse))
    ensures forall j :: 0 <= j < |Accepted(lines, parse)| ==> Accepted(lines, parse)[j] < |lines|
    decreases |lines|
  {
    if |lines| != 0 {
      var tail := lines[1..];
      AcceptedIncreasing(tail, parse);
      var shifted := Shift(Accepted(tail, parse));
      assert Increasing(shifted);
      assert forall j :: 0 <= j < |shifted| ==> 1 <= shifted[j] < |lines|;
      if HasContent(lines[0]) && parse(lines[0]).Some? {
        assert Accepted(lines, parse) == [0] + shifted;
      } else {
        assert Accepted(lines, parse) == shifted;
      }
    }
  }

  lemma {:induction false} AcceptedCovers<R>(lines: seq<string>, parse: string -> Option<R>)
    ensures Covers(lines, parse, Accepted(lines, parse))
    decreases |lines|
  {
    if |lines| != 0 {
      var tail := lines[1..];
      AcceptedCovers(tail, parse);
      var rest := Accepted(tail, parse);
      var shifted := Shift(rest);
      forall i | 1 <= i < |lines| && HasContent(lines[i]) && parse(lines[i]).Some?
        ensures i in shifted
      {
        assert tail[i - 1] == lines[i];
        var j :| 0 <= j < |rest| && rest[j] == i - 1;
        assert shifted[j] == i;
      }
    }
  }

  /** The parsed entries are exactly the lines that parse successfully, in
      their original order. */
  lemma {:induction false} ParseLinesSelectsSuccesses<R>(lines: seq<string>, parse: string -> Option<R>)
    ensures Selects(lines, parse, ParseLines(lines, parse), Accepted(lines, parse))
  {
    AcceptedPicks(lines, parse);
    AcceptedIncreasing(lines, parse);
    AcceptedCovers(lines, parse);
  }

  /** The entries of a chunk are exactly the results of `parse` on the
      pieces of its split that have content and that `parse` accepts, in
      their order in the chunk. */
  lemma {:induction false} ParseNdjsonSelects<R>(chunk: string, parse: string -> Option<R>)
    ensures Selects(Split(chunk), parse, ParseNdjson(chunk, parse), Accepted(Split(chunk), parse))
  {
    FilterIsRedundant(Split(chunk), parse);
    ParseLinesSelectsSuccesses(Split(chunk), parse);
  }

  /** Blank lines are never handed to `parse`: two parsers that agree on
      every line of the chunk with content give the same entries. */
  lemma ParseNdjsonConsultsOnlyContent<R>(chunk: string, p1: string -> Option<R>, p2: string -> Option<R>)
    requires forall i :: 0 <= i < |Split(chunk)| && HasContent(Split(chunk)[i]) ==>
               p1(Split(chunk)[i]) == p2(Split(chunk)[i])
    ensures ParseNdjson(chunk, p1) == ParseNdjson(chunk, p2)
  {
    var lines := Lines(chunk);
    KeepContentKeepsNonBlank(Split(chunk));
    forall i | 0 <= i < |lines| ensures p1(lines[i]) == p2(lines[i]) {
      TrimEmptyIffBlank(lines[i]);
      var j :| 0 <= j < |Split(chunk)| && Split(chunk)[j] == lines[i];
    }
    ParseLinesAgree(lines, p1, p2);
  }

  lemma {:induction false} ParseLinesAgree<R>(lines: seq<string>, p1: string -> Option<R>, p2: string -> Option<R>)
    requires forall i :: 0 <= i < |lines| && HasContent(lines[i]) ==> p1(lines[i]) == p2(lines[i])
    ensures ParseLines(lines, p1) == ParseLines(lines, p2)
    decreases |lines|
  {
    if |lines| != 0 {
      assert forall i :: 0 <= i < |lines| - 1 ==> lines[1..][i] == lines[i + 1];
      ParseLinesAgree(lines[1..], p1, p2);
    }
  }

  /** The `line.trim() !== ""` test inside the loop repeats the filter, so
      parsing the filtered lines is the same as parsing every piece of the
      split: a piece without content never reaches `parse` either way. */
  lemma {:induction false} FilterIsRedundant<R>(pieces: seq<string>, parse: string -> Option<R>)
    ensures ParseLines(KeepContent(pieces), parse) == ParseLines(pieces, parse)
    decreases |pieces|
  {
    if |pieces| != 0 {
      var head := if HasContent(pieces[0]) then [pieces[0]] else [];
      FilterIsRedundant(pieces[1..], parse);
      assert KeepContent(pieces) == head + KeepContent(pieces[1..]);
      ParseLinesAppend(head, KeepContent(pieces[1..]), parse);
      if HasContent(pieces[0]) {
        assert ParseLines(head, parse) == ParseLine(pieces[0], parse);
      } else {
        assert ParseLines(head, parse) == [];
      }
    }
  }

  /** A chunk holding one record and no newline yields exactly that record. */
  lemma ParseNdjsonSingleRecord<R>(chunk: string, parse: string -> Option<R>, entry: R)
    requires Newline !in chunk && HasContent(chunk)
    requires parse(chunk) == Some(entry)
    ensures ParseNdjson(chunk, parse) == [entry]
  {
    SplitNoNewline(chunk);
    FilterIsRedundant([chunk], parse);
    assert ParseLines([chunk], parse) == [entry] + ParseLines([], parse);
  }

  /** A malformed line between two good ones costs only itself: the chunk
      yields the two good entries, in order. */
  lemma ParseNdjsonMalformedBetween<R>(first: string, bad: string, last: string,
                                       parse: string -> Option<R>, e1: R, e2: R)
    requires Newline !in first && Newline !in bad && Newline !in last
    requires HasContent(first) && HasContent(last)
    requires parse(first) == Some(e1) && parse(bad) == None && parse(last) == Some(e2)
    ensures ParseNdjson(first + [Newline] + bad + [Newline] + last, parse) == [e1, e2]
  {
    var pieces := [first, bad, last];
    assert pieces[1..] == [bad, last] && pieces[1..][1..] == [last];
    assert Join([bad, last]) == bad + [Newline] + last;
    assert Join(pieces) == first + [Newline] + bad + [Newline] + last;
    SplitJoin(pieces);
    FilterIsRedundant(pieces, parse);
    assert ParseLines([last], parse) == [e2];
    assert ParseLines([bad, last], parse) == [e2];
    assert ParseLines(pieces, parse) == [e1] + [e2];
  }

  /** The empty string has no content. */
  lemma EmptyHasNoContent()
    ensures !HasContent("")
  {
    TrimEmptyIffBlank("");
  }

  /** The empty chunk yields no entries. */
  lemma ParseNdjsonEmpty<R>(parse: string -> Option<R>)
    ensures ParseNdjson("", parse) == []
  {
    EmptyHasNoContent();
    assert Split("") == [""];
    assert KeepContent([""]) == [] + KeepContent([""][1..]);
  }

  /** A newline cuts a chunk cleanly: the entries of `pre + "\n" + s` are
      those of `pre` followed by those of `s`. */
  lemma ParseNdjsonAtNewline<R>(pre: string, s: string, parse: string -> Option<R>)
    ensures ParseNdjson(pre + [Newline] + s, parse) == ParseNdjson(pre, parse) + ParseNdjson(s, parse)
  {
    var whole := pre + [Newline] + s;
    assert Split(whole) == Split(pre) + Split(s) by {
      SplitAtNewline(pre, s);
    }
    assert ParseNdjson(whole, parse) == ParseLines(Split(whole), parse) by {
      FilterIsRedundant(Split(whole), parse);
    }
    assert ParseNdjson(pre, parse) == ParseLines(Split(pre), parse) by {
      FilterIsRedundant(Split(pre), parse);
    }
    assert ParseNdjson(s, parse) == ParseLines(Split(s), parse) by {
      FilterIsRedundant(Split(s), parse);
    }
    ParseLinesAppend(Split(pre), Split(s), parse);
  }

  /** Page seams that fall on a newline lose nothing. Consecutive pages
      share one byte, so when the first page ends in a newline the second
      starts with that same newline; parsing the two pages separately gives
      the entries of the stream they cover. */
  lemma ParseNdjsonSeamAtNewline<R>(pre: string, s: string, parse: string -> Option<R>)
    ensures ParseNdjson(pre + [Newline], parse) + ParseNdjson([Newline] + s, parse)
         == ParseNdjson(pre + [Newline] + s, parse)
  {
    assert ParseNdjson(pre + [Newline], parse) == ParseNdjson(pre, parse) by {
      ParseNdjsonAtNewline(pre, "", parse);
      assert pre + [Newline] + "" == pre + [Newline];
      ParseNdjsonEmpty(parse);
    }
    assert ParseNdjson([Newline] + s, parse) == ParseNdjson(s, parse) by {
      ParseNdjsonAtNewline("", s, parse);
      assert "" + [Newline] + s == [Newline] + s;
      ParseNdjsonEmpty(parse);
    }
    ParseNdjsonAtNewline(pre, s, parse);
  }

  /** A newline-free chunk that `parse` rejects yields no entries. */
  lemma {:induction false} ParseNdjsonRejectedLine<R>(line: string, parse: string -> Option<R>)
    requires Newline !in line && parse(line) == None
    ensures ParseNdjson(line, parse) == []
  {
    SplitNoNewline(line);
    FilterIsRedundant([line], parse);
    assert ParseLines([line], parse) == ParseLine(line, parse) + ParseLines([], parse);
  }

  /** A record cut by a page seam is lost, together with nothing else.
      Consecutive pages share one byte, so the record's fragments are `x`,
      ending the first page after the lines `pre`, and `y`, starting the
      second page before the lines `post`, with `y[0] == x[|x| - 1]`; the
      record is `x + y[1..]`. (The shared byte reads the same on both pages
      only when it is a one-byte character: a seam inside a multi-byte UTF-8
      character leaves U+FFFD at the end of `x` and at the start of `y`.)
      When `parse` rejects both fragments, each page yields only its
      surrounding lines, where the unsplit stream would also have yielded
      the record's entry between them. */
  lemma {:induction false} ParseNdjsonSplitRecord<R>(pre: string, x: string, y: string, post: string,
                                                    parse: string -> Option<R>, entry: R)
    requires |x| > 0 && |y| > 0 && y[0] == x[|x| - 1]
    requires Newline !in x && Newline !in y && HasContent(x)
    requires parse(x) == None && parse(y) == None && parse(x + y[1..]) == Some(entry)
    ensures ParseNdjson(pre + [Newline] + x, parse) == ParseNdjson(pre, parse)
    ensures ParseNdjson(y + [Newline] + post, parse) == ParseNdjson(post, parse)
    ensures ParseNdjson(pre + [Newline] + ((x + y[1..]) + [Newline] + post), parse)
         == ParseNdjson(pre, parse) + [entry] + ParseNdjson(post, parse)
  {
    var whole := x + y[1..];
    assert ParseNdjson(pre + [Newline] + x, parse) == ParseNdjson(pre, parse) by {
      ParseNdjsonRejectedLine(x, parse);
      ParseNdjsonAtNewline(pre, x, parse);
    }
    assert ParseNdjson(y + [Newline] + post, parse) == ParseNdjson(post, parse) by {
      ParseNdjsonRejectedLine(y, parse);
      ParseNdjsonAtNewline(y, post, parse);
    }
    assert Newline !in whole by {
      forall i | 0 <= i < |whole| ensures whole[i] != Newline {
        if i >= |x| {
          assert whole[i] == y[i - |x| + 1];
        }
      }
    }
    assert HasContent(whole) by {
      TrimEmptyIffBlank(x);
      TrimEmptyIffBlank(whole);
      var k :| 0 <= k < |x| && !IsWhitespace(x[k]);
      assert whole[k] == x[k];
    }
    var tail := whole + [Newline] + post;
    assert ParseNdjson(tail, parse) == [entry] + ParseNdjson(post, parse) by {
      ParseNdjsonSingleRecord(whole, parse, entry);
      ParseNdjsonAtNewline(whole, post, parse);
    }
    ParseNdjsonAtNewline(pre, tail, parse);
  }
}

=== FILE: paging.dfy ===
/** The paging cycle of `fetchLogs` in the log viewer. A trigger is ignored
    while a fetch is in flight (`loading`). Otherwise the viewer sets
    `loading`, requests the byte range `start`..`start + chunkSize` (both ends
    inclusive), parses the returned text, appends the entries to `logs`,
    advances `start` by exactly `chunkSize` and clears `loading`. Nothing
    detects the end of the data, nothing carries a partial record over to the
    next chunk, and a fetch that rejects leaves `loading` set for good. */
module Paging {
  import opened Wrappers
  import opened Ndjson

  /** Bytes per page: `chunkSize`. */
  const ChunkSize: nat := 10000

  /** A request carrying the header `Range: bytes=first-last`; in HTTP both
      ends of a byte range are inclusive. */
  datatype Request = Request(first: nat, last: nat)

  /** What awaiting `fetch` and then `response.text()` produces: the body
      text, or a rejection (transport failure, unreadable body). The status
      is never checked, so an error page arrives as a `Body` like any other. */
  datatype Reply = Body(text: string) | Rejected

  /** The state `fetchLogs` reads and writes: `start`, `loading` and `logs`. */
  datatype Viewer<R> = Viewer(start: nat, loading: bool, logs: seq<R>)

  /** The state on mount: `useState(0)`, `useState(false)`, `useState([])`. */
  function Initial<R>(): (v: Viewer<R>)
    ensures v.start % ChunkSize == 0 && !v.loading && |v.logs| == 0
  {
    Viewer(0, false, [])
  }

  /** Number of bytes a request covers. */
  function Span(r: Request): int
  {
    r.last - r.first + 1
  }

  /** The request for the page at `start`: `fetchLogChunk(url, start, start + chunkSize)`. */
  function PageRequest(start: nat): (r: Request)
    ensures r.first == start
    ensures Span(r) == ChunkSize + 1
  {
    Request(start, start + ChunkSize)
  }

  /** `fetchLogs` up to its `await`: a no-op while `loading`; otherwise
      `loading` is set and the page at `start` is requested. */
  function Begin<R>(v: Viewer<R>): (r: (Viewer<R>, Option<Request>))
    ensures r.1.Some? <==> !v.loading
    ensures v.loading ==> r.0 == v
    ensures r.1.Some? ==> r.1.value.first == v.start && Span(r.1.value) == ChunkSize + 1
    ensures r.0.loading && r.0.start == v.start && r.0.logs == v.logs
  {
    if v.loading then (v, None)
    else (v.(loading := true), Some(PageRequest(v.start)))
  }

  /** `fetchLogs` after its `await`. A body is parsed and its entries are
      appended, then `start` advances by `chunkSize` whatever the body's
      length, and `loading` is cleared. A rejection propagates out of the
      async function before any of that, so nothing changes and `loading`
      stays set (there is no `try`/`finally`). */
  function Finish<R>(v: Viewer<R>, reply: Reply, parse: string -> Option<R>): (r: Viewer<R>)
    requires v.loading
    ensures v.logs <= r.logs
    ensures reply.Body? ==> r.logs[|v.logs|..] == ParseNdjson(reply.text, parse)
    ensures reply.Rejected? ==> r == v
    ensures r.start == v.start + (if reply.Body? then ChunkSize else 0)
    ensures r.loading <==> reply.Rejected?
  {
    match reply
    case Rejected => v
    case Body(text) =>
      var entries := ParseNdjson(text, parse);
      assert (v.logs + entries)[|v.logs|..] == entries;
      Viewer(v.start + ChunkSize, false, v.logs + entries)
  }

  /** One call of `fetchLogs` run to completion with `reply` as the result of
      its fetch; the request it makes, if any, is returned beside the state. */
  function Cycle<R>(v: Viewer<R>, reply: Reply, parse: string -> Option<R>): (r: (Viewer<R>, Option<Request>))
    ensures r.1.Some? <==> !v.loading
    ensures r.1.Some? ==> r.1.value == PageRequest(v.start)
    ensures v.loading ==> r.0 == v
    ensures v.logs <= r.0.logs
    ensures !v.loading && reply.Body? ==> r.0.logs[|v.logs|..] == ParseNdjson(reply.text, parse)
    ensures !v.loading ==> (r.0.loading <==> reply.Rejected?)
    ensures !v.loading ==> r.0.start == v.start + (if reply.Body? then ChunkSize else 0)
  {
    var (w, request) := Begin(v);
    if request.None? then (v, None) else (Finish(w, reply, parse), request)
  }

  /** Successive calls of `fetchLogs`, the i-th fetch answered by `replies[i]`
      (a call that makes no fetch consumes no reply); the requests made, in order. */
  function Run<R>(v: Viewer<R>, replies: seq<Reply>, parse: string -> Option<R>): (r: (Viewer<R>, seq<Request>))
    ensures v.logs <= r.0.logs
    ensures v.start <= r.0.start
    ensures |r.1| <= |replies|
    decreases |replies|
  {
    if |replies| == 0 || v.loading then (v, [])
    else
      var (w, request) := Cycle(v, replies[0], parse);
      var (u, later) := Run(w, replies[1..], parse);
      (u, [request.value] + later)
  }

  /** How many replies are bodies before the first rejection. */
  function Served(replies: seq<Reply>): (k: nat)
    ensures k <= |replies|
  {
    if |replies| == 0 || replies[0].Rejected? then 0 else 1 + Served(replies[1..])
  }

  /** The entries of all bodies among `replies`, chunk after chunk. */
  function Entries<R>(replies: seq<Reply>, parse: string -> Option<R>): seq<R>
  {
    if |replies| == 0 then []
    else
      (match replies[0] case Body(text) => ParseNdjson(text, parse) case Rejected => [])
      + Entries(replies[1..], parse)
  }

  /** A session from an idle state: with `k` bodies before the first
      rejection, the viewer makes the requests for pages `start`,
      `start + chunkSize`, ..., one more for the rejected fetch if there is
      one, and then no more; `start` advances by `k` pages; `logs` gains the
      entries of those `k` bodies in order; and `loading` stays set exactly
      when a fetch was rejected. */
  lemma {:induction false} RunFromIdle<R>(v: Viewer<R>, replies: seq<Reply>, parse: string -> Option<R>)
    requires !v.loading
    ensures var (w, requests) := Run(v, replies, parse);
      var k := Served(replies);
      && w.start == v.start + k * ChunkSize
      && w.logs == v.logs + Entries(replies[..k], parse)
      && (w.loading <==> k < |replies|)
      && |requests| == (if k < |replies| then k + 1 else k)
      && (forall i :: 0 <= i < |requests| ==> requests[i] == PageRequest(v.start + i * ChunkSize))
  {
    RunCursor(v, replies, parse);
    RunLogs(v, replies, parse);
    RunRequests(v, replies, parse);
  }

  /** The first call of a session from an idle state requests the page at
      `start`, and the rest of the session continues from its outcome. */
  lemma RunFirstCall<R>(v: Viewer<R>, replies: seq<Reply>, parse: string -> Option<R>)
    requires !v.loading && |replies| > 0
    ensures var w := Finish(v.(loading := true), replies[0], parse);
      var (u, later) := Run(w, replies[1..], parse);
      Run(v, replies, parse) == (u, [PageRequest(v.start)] + later)
  {
  }

  lemma {:induction false} RunCursor<R>(v: Viewer<R>, replies: seq<Reply>, parse: string -> Option<R>)
    requires !v.loading
    ensures var w := Run(v, replies, parse).0;
      && w.start == v.start + Served(replies) * ChunkSize
      && (w.loading <==> Served(replies) < |replies|)
    decreases |replies|
  {
    if |replies| != 0 {
      RunFirstCall(v, replies, parse);
      var w := Finish(v.(loading := true), replies[0], parse);
      if replies[0].Body? {
        RunCursor(w, replies[1..], parse);
      } else {
        RunWhileLoading(w, replies[1..], parse);
      }
    }
  }

  lemma {:induction false} RunLogs<R>(v: Viewer<R>, replies: seq<Reply>, parse: string -> Option<R>)
    requires !v.loading
    ensures Run(v, replies, parse).0.logs == v.logs + Entries(replies[..Served(replies)], parse)
    decreases |replies|
  {
    if |replies| == 0 {
      assert replies[..0] == [];
    } else {
      var w := Finish(v.(loading := true), replies[0], parse);
      var rest := replies[1..];
      assert Run(v, replies, parse).0 == Run(w, rest, parse).0 by {
        RunFirstCall(v, replies, parse);
      }
      match replies[0]
      case Rejected =>
        RunWhileLoading(w, rest, parse);
        assert replies[..0] == [];
      case Body(_) =>
        RunLogs(w, rest, parse);
        ServedStep(v, replies, parse);
    }
  }

  /** One served page of `RunLogs`: the page's entries go in front of the
      entries the later pages add. */
  lemma ServedStep<R>(v: Viewer<R>, replies: seq<Reply>, parse: string -> Option<R>)
    requires !v.loading && |replies| > 0 && replies[0].Body?
    ensures var w, rest := Finish(v.(loading := true), replies[0], parse), replies[1..];
      w.logs + Entries(rest[..Served(rest)], parse) == v.logs + Entries(replies[..Served(replies)], parse)
  {
    var w, rest := Finish(v.(loading := true), replies[0], parse), replies[1..];
    var chunk, more := ParseNdjson(replies[0].text, parse), Entries(rest[..Served(rest)], parse);
    EntriesOfServed(replies, parse);
    FinishAppends(v.(loading := true), replies[0], parse);
    AppendAssoc(v.logs, chunk, more);
  }

  lemma AppendAssoc<T>(a: seq<T>, b: seq<T>, c: seq<T>)
    ensures (a + b) + c == a + (b + c)
  {
  }

  /** A served page's entries land right after the existing logs. */
  lemma FinishAppends<R>(v: Viewer<R>, reply: Reply, parse: string -> Option<R>)
    requires v.loading && reply.Body?
    ensures Finish(v, reply, parse).logs == v.logs + ParseNdjson(reply.text, parse)
  {
  }

  /** The entries of the served prefix start with those of the first body. */
  lemma EntriesOfServed<R>(replies: seq<Reply>, parse: string -> Option<R>)
    requires |replies| > 0 && replies[0].Body?
    ensures var rest := replies[1..];
      Entries(replies[..Served(replies)], parse)
        == ParseNdjson(replies[0].text, parse) + Entries(rest[..Served(rest)], parse)
  {
    var rest := replies[1..];
    var k := Served(rest);
    var pre := replies[..k + 1];
    assert pre[0] == replies[0] && pre[1..] == rest[..k];
  }

  lemma {:induction false} RunRequests<R>(v: Viewer<R>, replies: seq<Reply>, parse: string -> Option<R>)
    requires !v.loading
    ensures var requests := Run(v, replies, parse).1;
      && |requests| == (if Served(replies) < |replies| then Served(replies) + 1 else Served(replies))
      && (forall i :: 0 <= i < |requests| ==> requests[i] == PageRequest(v.start + i * ChunkSize))
    decreases |replies|
  {
    if |replies| != 0 {
      RunFirstCall(v, replies, parse);
      var w := Finish(v.(loading := true), replies[0], parse);
      var rest := replies[1..];
      var later := Run(w, rest, parse).1;
      if replies[0].Body? {
        RunRequests(w, rest, parse);
        forall i | 0 <= i < |later| + 1
          ensures ([PageRequest(v.start)] + later)[i] == PageRequest(v.start + i * ChunkSize)
        {
          if i > 0 {
            assert later[i - 1] == PageRequest(w.start + (i - 1) * ChunkSize);
          }
        }
      } else {
        RunWhileLoading(w, rest, parse);
      }
    }
  }

  /** Once `loading` is stuck, every later call is a no-op: no request is
      made and the state is unchanged. */
  lemma RunWhileLoading<R>(v: Viewer<R>, replies: seq<Reply>, parse: string -> Option<R>)
    requires v.loading
    ensures Run(v, replies, parse) == (v, [])
  {
  }

  /** From mount, `start` is always a whole number of pages, and consecutive
      requests share one byte: each starts at the byte the previous one
      ended on. */
  lemma PagesFromMount<R>(replies: seq<Reply>, parse: string -> Option<R>)
    ensures var (w, requests) := Run(Initial(), replies, parse);
      && w.start % ChunkSize == 0
      && (forall i :: 0 <= i < |requests| - 1 ==> requests[i].last == requests[i + 1].first)
      && (forall i :: 0 <= i < |requests| ==> Span(requests[i]) == ChunkSize + 1)
  {
    var v := Initial<R>();
    var (w, requests) := Run(v, replies, parse);
    assert w.start == Served(replies) * ChunkSize by {
      RunCursor(v, replies, parse);
    }
    WholePages(Served(replies));
    RunRequests(v, replies, parse);
    PagesChain(requests, v.start);
  }

  /** A whole number of pages is a multiple of `chunkSize`. */
  lemma WholePages(k: nat)
    ensures (k * ChunkSize) % ChunkSize == 0
  {
  }

  /** Pages requested at successive multiples of `chunkSize` from `base`
      each start at the byte the previous one ended on. */
  lemma PagesChain(requests: seq<Request>, base: nat)
    requires forall i :: 0 <= i < |requests| ==> requests[i] == PageRequest(base + i * ChunkSize)
    ensures forall i :: 0 <= i < |requests| - 1 ==> requests[i].last == requests[i + 1].first
  {
    forall i | 0 <= i < |requests| - 1 ensures requests[i].last == requests[i + 1].first {
      assert requests[i] == PageRequest(base + i * ChunkSize);
      assert requests[i + 1] == PageRequest(base + (i + 1) * ChunkSize);
      assert (i + 1) * ChunkSize == i * ChunkSize + ChunkSize;
    }
  }
}

=== FILE: wrappers.dfy ===
/** Failure-carrying values shared by the other modules. */
module Wrappers {

  /** A value that may be absent: `None` stands for a JavaScript call that
      throws (`JSON.parse` on a malformed line, `toISOString` on an Invalid Date). */
  datatype Option<T> = None | Some(value: T)
}
